=== FILE: README.md ===
# docuserv: document identity, in-memory store and request helpers

A Dafny model of three pieces of the `docuserv` document store:

- **Document identity and validation.** A document is an identifier plus a kind,
  `Physical(location)` or `InMemory`. Construction is the only validation gate: it rejects a
  null or blank identifier, an identifier that is not "alpha-numeric with a '.' extension and
  no more than 20 characters", and (physical documents) a null or blank location, each with
  its exact message and no cause. Equality and hashing look at the identifier alone; a
  `LinkedHashSet` of documents is modelled to show what that means for membership.
- **The in-memory document data mapper.** A map from identifier to bytes with
  `createDocument`, `updateDocument` and `retrieveDocumentById`. A `null` argument is `None`,
  an input stream is the byte sequence it drains to, and every failure is the
  `DocumentDMException` with its exact message. Argument checks run before the existence
  check in `updateDocument`.
- **`DocumentServlet` request helpers.** `extractDocumentId` (last path segment of the URI),
  `getFileName` (the naive `filename` extraction from a `Content-Disposition` header as used
  for multipart/form-data, section 4.2 of RFC 7578, whose parameter syntax is in section 4.1 of
  RFC 6266; the helper splits on `;` and does no unquoting), and the status each of
  `doGet`/`doDelete`/`doPut` leaves on the response.

Files: `wrappers.dfy` (Option/Result/Outcome), `errors.dfy` (the exception classes as one
datatype with message and cause), `java_strings.dfy` (Java `String` behaviour the code relies on:
`trim`, `startsWith`, `endsWith`, `indexOf`, `lastIndexOf`, `substring`, `split`, `hashCode`),
`documents.dfy`, `in_memory_mapper.dfy`, `document_servlet.dfy`.

Modelling choices:

- The behaviour of `PhysicalDocument`, `InMemoryDocument` and `InMemoryDocumentDataMapperImpl`
  is taken from the assertions and messages of the two test classes. Where a test checks only one fault at a time, the model fixes an
  order: identifier before location; the document (or `documentId`) before the stream; both
  arguments before the store lookup (which the tests do pin).
- "Blank" means what `String.trim()` makes empty: every character is at or below U+0020.
- A duplicate `createDocument` overwrites the stored bytes (a map `put`); no test covers it.
- The store is keyed by `Document.id`; only identifiers that passed construction reach it,
  which `OperationsKeepKeysWellFormed` turns into a store invariant.
- `hashCode` is taken to be the identifier's `String.hashCode` (31-polynomial wrapped to a
  Java `int`); only its agreement with `equals` is used.
- The document service is a parameter of `DoDelete`/`DoPut` (a function giving the service
  call's outcome). `InMemoryUpdateService` instantiates it with the in-memory mapper, reporting
  a mapper failure as a service error with the same message and cause.
- A runtime exception that escapes a handler (`NullPointerException` for a missing part or
  header, `StringIndexOutOfBoundsException` from `substring`) is the `Uncaught` response.
- `getFileName` uses Java's `split`, which drops trailing empty strings; `GetFileName` proves
  this never changes the answer, since an empty token never names the file.
- `LeadingWhitespaceIgnored` holds only for tokens that contain `=`: without one, `indexOf`
  gives -1 and the slice starts at index 1 of the untrimmed token, so `" filename"` and
  `"filename"` give different answers (`LeadingWhitespaceMattersWithoutEquals`).
- `extractDocumentId` is called for the servlet's second URL pattern too, so a request to the
  bare collection path `/storage/documents` yields the identifier `documents`
  (`CollectionPathYieldsLastSegment`).
- The `fail_*` test methods catch the exception and check its message, but never call
  `Assert.fail` when nothing is thrown; they are read as requiring the failure, which the
  model states.

## Model

| member | source | states |
|---|---|---|
| Documents.NewPhysicalDocument | src/test/java/com/krooj/docuserv/domain/TestPhysicalDocument.java:29-136 | Succeeds exactly for a well-formed identifier and a non-blank location, keeping both unchanged; otherwise fails with the identifier-empty, identifier-format or location-empty message (checked in that order), never with a cause |
| Documents.NewInMemoryDocument | src/test/java/com/krooj/docuserv/dm/TestInMemoryDocumentDataMapperImpl.java:29 | The in-memory document constructor applies the same identifier rule and messages, with no location |
| Documents.CheckId | src/test/java/com/krooj/docuserv/domain/TestPhysicalDocument.java:49-94 | A null or whitespace-only identifier fails with "id may not be empty or null"; a non-blank ill-formed one with the format message; a well-formed one passes unchanged |
| Documents.IsWellFormedId | src/test/java/com/krooj/docuserv/domain/TestPhysicalDocument.java:51 | The identifier rule: a non-empty alphanumeric stem, a '.', a non-empty alphanumeric extension, at most 20 characters; so a well-formed identifier has at least three characters and starts and ends alphanumeric |
| Documents.WellFormedIdByFirstDot | src/test/java/com/krooj/docuserv/domain/TestPhysicalDocument.java:51 | The identifier rule (some '.' splits it into a non-empty alphanumeric stem and extension, at most 20 characters) is equivalent to checking at the first '.' only, so the dot is unique |
| Documents.WellFormedIdIsNotBlank | src/test/java/com/krooj/docuserv/domain/TestPhysicalDocument.java:91-94 | A well-formed identifier is never blank, so the empty check and the format check never both apply |
| Documents.WellFormedIdCharacters | src/test/java/com/krooj/docuserv/domain/TestPhysicalDocument.java:51 | Every character of a well-formed identifier is alphanumeric or the '.' |
| Documents.PhysicalDocumentKeepsId | src/test/java/com/krooj/docuserv/domain/TestPhysicalDocument.java:29-33 | A valid identifier with a non-blank location constructs, and `getId` returns the identifier |
| Documents.TrailingSlashIdRejected | src/test/java/com/krooj/docuserv/domain/TestPhysicalDocument.java:49-52 | "test.bar/" is rejected with the format message and no cause |
| Documents.EmbeddedSeparatorIdRejected | src/test/java/com/krooj/docuserv/domain/TestPhysicalDocument.java:51 | "bad/id.txt" is rejected with the format message: a '/' in the stem is not alphanumeric |
| Documents.HashCode | src/test/java/com/krooj/docuserv/domain/TestPhysicalDocument.java:165-178 | `hashCode` is a Java `int` computed from the identifier alone |
| Documents.Equals | src/test/java/com/krooj/docuserv/domain/TestPhysicalDocument.java:146-160 | `equals` compares identifiers only, and documents it calls equal have equal hash codes |
| Documents.EqualsIsConsistent | src/test/java/com/krooj/docuserv/domain/TestPhysicalDocument.java:146-160 | `equals` on identifiers is reflexive, symmetric and transitive across variants, and equal documents hash alike |
| Documents.Contains | src/test/java/com/krooj/docuserv/domain/TestPhysicalDocument.java:165-178 | A hash-then-equals lookup finds a document exactly when some element has the same identifier |
| Documents.Add | src/test/java/com/krooj/docuserv/domain/TestPhysicalDocument.java:167-177 | After adding, the set contains the added document and exactly the documents it contained before or that equal the added one; adding a present document changes nothing |
| Documents.SingletonSetMembership | src/test/java/com/krooj/docuserv/domain/TestPhysicalDocument.java:165-178 | A set holding one document reports that it contains another document exactly when their identifiers are equal |
| InMemoryMapper.NotInStoreMessageNamesId | src/test/java/com/krooj/docuserv/dm/TestInMemoryDocumentDataMapperImpl.java:127 | The not-found message names its identifier: two identifiers give the same message only if they are equal |
| InMemoryMapper.RetrieveDocumentById | src/test/java/com/krooj/docuserv/dm/TestInMemoryDocumentDataMapperImpl.java:40 | Retrieval answers "not found" exactly for identifiers that are not stored |
| InMemoryMapper.CreateDocument | src/test/java/com/krooj/docuserv/dm/TestInMemoryDocumentDataMapperImpl.java:37-85 | A null document fails with "document may not be null", then a null stream with "documentInputStream may not be null"; otherwise the document's identifier retrieves exactly the drained bytes, and no other identifier changes |
| InMemoryMapper.UpdateDocument | src/test/java/com/krooj/docuserv/dm/TestInMemoryDocumentDataMapperImpl.java:105-173 | Fails for a null identifier, then a null stream, then an identifier not in the store (message naming it), never with a cause; succeeds exactly otherwise, replacing that identifier's bytes and keeping the key set and every other entry |
| InMemoryMapper.OperationsKeepKeysWellFormed | src/test/java/com/krooj/docuserv/dm/TestInMemoryDocumentDataMapperImpl.java:37 | Creating a constructed document or updating keeps every stored key a well-formed identifier |
| InMemoryMapper.CreateThenRetrieve | src/test/java/com/krooj/docuserv/dm/TestInMemoryDocumentDataMapperImpl.java:37-40 | After a create, retrieving by the document's identifier yields the created bytes |
| InMemoryMapper.UpdateAfterCreate | src/test/java/com/krooj/docuserv/dm/TestInMemoryDocumentDataMapperImpl.java:97-108 | Updating a created document succeeds for any content, the already-drained empty stream included, and the identifier retrieves the new content |
| InMemoryMapper.UpdateOnEmptyStoreFails | src/test/java/com/krooj/docuserv/dm/TestInMemoryDocumentDataMapperImpl.java:124-128 | Updating any identifier of a fresh store fails with "Document identified by documentId: <id> does not exist in store" |
| InMemoryMapper.StreamCheckPrecedesLookup | src/test/java/com/krooj/docuserv/dm/TestInMemoryDocumentDataMapperImpl.java:161-173 | A null stream is reported as such whether or not the identifier is stored |
| InMemoryMapper.UpdateOverwrites | src/test/java/com/krooj/docuserv/dm/TestInMemoryDocumentDataMapperImpl.java:105 | Two updates of one identifier leave the same store as the second alone |
| InMemoryMapper.CreateUpdateScenario | src/test/java/com/krooj/docuserv/dm/TestInMemoryDocumentDataMapperImpl.java:96-108 | Creating "a.txt" then updating it retrieves first the created, then the updated bytes |
| JavaStrings.TrimIsEmptyExactlyWhenBlank | src/main/java/com/krooj/docuserv/servlet/DocumentServlet.java:115 | `trim` is empty exactly for blank strings and otherwise starts and ends with a non-whitespace character |
| JavaStrings.TrimUnpadded | src/main/java/com/krooj/docuserv/servlet/DocumentServlet.java:115 | A string with no whitespace at either end is left unchanged by `trim` |
| JavaStrings.IndexOf | src/main/java/com/krooj/docuserv/servlet/DocumentServlet.java:116 | `indexOf` is -1 exactly when the character is absent, else its first position |
| JavaStrings.LastIndexOf | src/main/java/com/krooj/docuserv/servlet/DocumentServlet.java:107 | `lastIndexOf` is -1 exactly when the character is absent, else its last position |
| JavaStrings.JavaSplit | src/main/java/com/krooj/docuserv/servlet/DocumentServlet.java:113 | `split` gives the whole string when there is no separator; otherwise the pieces in order, minus exactly the empty pieces at the end, so the last piece kept is non-empty |
| JavaStrings.JoinSplit | src/main/java/com/krooj/docuserv/servlet/DocumentServlet.java:113 | Joining the pieces of a split gives back the header |
| JavaStrings.SplitJoin | src/main/java/com/krooj/docuserv/servlet/DocumentServlet.java:113 | Splitting a join of separator-free tokens gives back the tokens |
| JavaStrings.LastPieceOfSplit | src/main/java/com/krooj/docuserv/servlet/DocumentServlet.java:107 | What follows `lastIndexOf` is the last piece of the string split at every separator |
| JavaStrings.TrimBlankPrefix | src/main/java/com/krooj/docuserv/servlet/DocumentServlet.java:115 | Leading whitespace does not change what `trim` keeps |
| DocumentServlet.ExtractDocumentId | src/main/java/com/krooj/docuserv/servlet/DocumentServlet.java:103-108 | Fails with "Malformed document request" exactly for a null, empty or '/'-terminated URI; otherwise answers a non-empty, '/'-free suffix of the URI that starts the URI or follows a '/' |
| DocumentServlet.ExtractIsLastSegment | src/main/java/com/krooj/docuserv/servlet/DocumentServlet.java:103-108 | A URI is accepted exactly when the last piece of its split on '/' is non-empty, and the identifier is that piece |
| DocumentServlet.SlashFreeUriIsItsOwnId | src/main/java/com/krooj/docuserv/servlet/DocumentServlet.java:107 | A non-empty URI with no '/' is returned unchanged |
| DocumentServlet.CollectionPathYieldsLastSegment | src/main/java/com/krooj/docuserv/servlet/DocumentServlet.java:103-108 | The bare collection path "/storage/documents" (also mapped to the servlet) yields the identifier "documents" |
| DocumentServlet.NamesFileAfterLeadingWhitespace | src/main/java/com/krooj/docuserv/servlet/DocumentServlet.java:115 | The test `token.trim().startsWith("filename")` holds exactly when the token, past its leading whitespace, continues with "filename"; trailing whitespace never matters |
| DocumentServlet.FileNameFromToken | src/main/java/com/krooj/docuserv/servlet/DocumentServlet.java:116 | The slice succeeds exactly when the begin index (two past the first '=', or 1 without one) does not pass the token's last character, and then gives the text that starts two past the first '=' and ends just before that last character; otherwise `StringIndexOutOfBoundsException` |
| DocumentServlet.SliceAfterEquals | src/main/java/com/krooj/docuserv/servlet/DocumentServlet.java:116 | For a token `p=v` with no '=' in `p`, the answer is `v` without its first and last characters, whatever they are (an unquoted `filename=abc` gives "b"; `filename = "a.txt"` keeps the opening quote) |
| DocumentServlet.FileNameFromTokens | src/main/java/com/krooj/docuserv/servlet/DocumentServlet.java:113-119 | With no token naming the file the answer is ""; otherwise it is the extraction from the first token whose trim starts with "filename" |
| DocumentServlet.TrailingEmptyTokensIgnored | src/main/java/com/krooj/docuserv/servlet/DocumentServlet.java:113-115 | Empty tokens at the end never change the answer |
| DocumentServlet.GetFileName | src/main/java/com/krooj/docuserv/servlet/DocumentServlet.java:110-120 | A missing header throws `NullPointerException`; otherwise the answer over Java's split equals the answer over every ';'-separated piece |
| DocumentServlet.FormDataFileNameRoundTrip | src/main/java/com/krooj/docuserv/servlet/DocumentServlet.java:110-120 | For a form-data header `form-data; name="F"; filename="N"` with no ';' in F or N, the answer is N |
| DocumentServlet.DocumentFieldExample | src/main/java/com/krooj/docuserv/servlet/DocumentServlet.java:114-117 | `form-data; name="document"; filename="a.txt"` yields `a.txt` |
| DocumentServlet.LeadingWhitespaceIgnored | src/main/java/com/krooj/docuserv/servlet/DocumentServlet.java:115-116 | Whitespace before a token that contains '=' changes neither whether it names the file nor the extracted value |
| DocumentServlet.SliceWithoutEquals | src/main/java/com/krooj/docuserv/servlet/DocumentServlet.java:116 | For a token without '=', the extraction is the token minus its first and last characters |
| DocumentServlet.LeadingWhitespaceMattersWithoutEquals | src/main/java/com/krooj/docuserv/servlet/DocumentServlet.java:116 | "filename" yields "ilenam" but " filename" yields "filenam" |
| DocumentServlet.EmptyFileNameValueThrows | src/main/java/com/krooj/docuserv/servlet/DocumentServlet.java:116 | "filename=" names the file and makes `substring` throw |
| DocumentServlet.DoGet | src/main/java/com/krooj/docuserv/servlet/DocumentServlet.java:34-44 | 404 exactly when the URI is null or has an empty last segment; otherwise the asynchronous transfer starts for that segment |
| DocumentServlet.DoDelete | src/main/java/com/krooj/docuserv/servlet/DocumentServlet.java:50-59 | Always 204 or 404, and 204 exactly when the URI has a non-empty last segment and the service deletes that document |
| DocumentServlet.DoPut | src/main/java/com/krooj/docuserv/servlet/DocumentServlet.java:67-78 | A runtime exception from `getFileName` escapes; otherwise 204 when the service updates the named document and 404 when it fails |
| DocumentServlet.PutWithoutFileNameIsNotFound | src/main/java/com/krooj/docuserv/servlet/DocumentServlet.java:69-77 | Against the in-memory mapper, a header naming no file asks to update "", which no store of constructed documents holds, so the answer is 404 |
| DocumentServlet.PutOfStoredDocumentIsNoContent | src/main/java/com/krooj/docuserv/servlet/DocumentServlet.java:67-74 | Against the in-memory mapper, a form-data upload named after a stored document is answered 204 |

## Left out

- Asynchronous transfer: the read and write listeners, `AsyncContext`, `startAsync` and readiness callbacks are concurrency and transport plumbing; `DoGet` stops at `AsyncTransfer(id)`.
- `doPost` (it takes the `x-documentid` header without any check and hands over to the read listener), `@WebServlet`/`@Inject` wiring, `getPart` and Log4j logging: container glue.
- The filesystem-backed mapper: it does real I/O, and its only modellable content is error wrapping.
- The mapper's `deleteDocument`: nothing here exercises it; `DoDelete` takes the service's delete outcome as a parameter.
- `DocumentService` is not part of this model beyond `InMemoryUpdateService`, which assumes it passes calls to the mapper and rewraps its failures.
- Concurrent visibility of updates: only sequential behaviour is modelled.
- Draining an `InputStream`: a stream is the byte sequence it yields, or `None` for `null`.
- `retrieveDocumentById(null)`: no test calls it, so its behaviour is unspecified; the identifier is a plain string.
- Full RFC 6266 / RFC 7578 parsing (quoted ';', `filename*`, unescaping): `getFileName` does none of it, and any token starting with `filename`, `filename*` included, matches.
- Exception messages of `NullPointerException` and `StringIndexOutOfBoundsException`: only the exception class is kept.
- Strings are sequences of Unicode scalar values, not UTF-16 code units; this matters only for characters outside the Basic Multilingual Plane: `hashCode`, and both ends of `getFileName`'s slice: `indexOf("=") + 2` when the character right after the '=' lies outside the plane, and `length() - 1` when the token's last character does. Java may then return a lone surrogate, or succeed (with "", for `filename=` followed by one such character) where the model throws. The identifier rule admits only ASCII letters, digits and '.', so its 20-character limit is unaffected.
- CreateThenRetrieve: the test asserts only that retrieval is non-null; the model states the stronger "returns the created bytes".

=== FILE: document_servlet.dfy ===
/**
 * The request handling of `DocumentServlet`: recovering the document identifier
 * from the request URI (GET, DELETE) or from the uploaded part's
 * Content-Disposition header (PUT), and mapping the service's answer to an HTTP
 * status.  The document service is a parameter: a function from the handler's
 * arguments to the service call's outcome.
 */
module DocumentServlet {
  import opened Wrappers
  import opened Errors
  import opened JavaStrings
  import opened Documents
  import opened InMemoryMapper

  const MALFORMED_REQUEST_MESSAGE := "Malformed document request"

  const SC_NO_CONTENT: int := 204
  const SC_NOT_FOUND: int := 404

  // ----- extractDocumentId -----

  /**
   * `extractDocumentId(requestUrl)`: rejects a null or empty URI and one ending
   * in '/', and otherwise answers the text after the last '/'.
   */
  function ExtractDocumentId(requestUri: Option<string>): (r: Result<string, Error>)
    ensures r.Failure? <==> requestUri.None? || requestUri.value == [] || EndsWith(requestUri.value, "/")
    ensures r.Failure? ==> r.error == Raise(Servlet, MALFORMED_REQUEST_MESSAGE)
    ensures r.Success? ==>
              var s, id := requestUri.value, r.value;
              && id != []
              && '/' !in id
              && |id| <= |s|
              && s[|s| - |id|..] == id
              && (|id| == |s| || s[|s| - |id| - 1] == '/')
  {
    if requestUri.None? || requestUri.value == [] || EndsWith(requestUri.value, "/") then
      Failure(Raise(Servlet, MALFORMED_REQUEST_MESSAGE))
    else
      var s := requestUri.value;
      assert s[|s| - 1] != '/' by {
        assert s[|s| - 1..] == [s[|s| - 1]];
      }
      Success(s[LastIndexOf(s, '/') + 1..|s|])
  }

  /**
   * The identifier is accepted exactly when the URI's last segment is non-empty,
   * and it is then that segment.
   */
  lemma ExtractIsLastSegment(s: string)
    ensures ExtractDocumentId(Some(s)) ==
              if LastPiece(s, '/') == [] then Failure(Raise(Servlet, MALFORMED_REQUEST_MESSAGE))
              else Success(LastPiece(s, '/'))
  {
    LastPieceOfSplit(s, '/');
    var k := LastIndexOf(s, '/');
    if s != [] {
      assert EndsWith(s, "/") <==> s[|s| - 1] == '/' by {
        assert s[|s| - 1..] == [s[|s| - 1]];
      }
      assert s[|s| - 1] == '/' ==> k == |s| - 1;
      assert s[k + 1..|s|] == s[k + 1..];
    }
  }

  /** A URI without any '/' is its own identifier. */
  lemma SlashFreeUriIsItsOwnId(s: string)
    requires s != [] && '/' !in s
    ensures ExtractDocumentId(Some(s)) == Success(s)
  {
    assert s[|s| - 1..] == [s[|s| - 1]];
    assert s[0..|s|] == s;
  }

  /** The servlet is also mapped to the collection path itself, whose last segment is then taken as an identifier. */
  lemma CollectionPathYieldsLastSegment()
    ensures ExtractDocumentId(Some("/storage/documents")) == Success("documents")
  {
    var s := "/storage/documents";
    assert s[8] == '/';
    assert LastIndexOf(s, '/') == 8 by {
      assert '/' !in s[9..];
    }
  }

  // ----- getFileName -----

  const FILENAME_PARAMETER := "filename"

  /** A header token that `getFileName` takes as the filename parameter: trimmed, it starts with "filename". */
  predicate NamesFile(token: string) {
    StartsWith(Trim(token), FILENAME_PARAMETER)
  }

  /**
   * Only leading whitespace matters to the test: a token names the file exactly
   * when, past its leading whitespace, it continues with "filename".
   */
  lemma NamesFileAfterLeadingWhitespace(token: string)
    ensures NamesFile(token) <==> StartsWith(token[SkipLeading(token, 0)..], FILENAME_PARAMETER)
  {
    var begin := SkipLeading(token, 0);
    var end := SkipTrailing(token, begin, |token|);
    var n := |FILENAME_PARAMETER|;
    assert Trim(token) == token[begin..end];
    if StartsWith(token[begin..], FILENAME_PARAMETER) {
      assert token[begin + n - 1] == 'e';
      assert end >= begin + n;
      CommonPrefixOfSlices(token, begin, end, n);
    }
    if NamesFile(token) {
      CommonPrefixOfSlices(token, begin, end, n);
    }
  }

  /** Two slices from one start share their first `n` characters. */
  lemma CommonPrefixOfSlices(s: string, begin: nat, end: nat, n: nat)
    requires begin + n <= end <= |s|
    ensures s[begin..end][..n] == s[begin..][..n] == s[begin..begin + n]
  {
  }

  /**
   * What `getFileName` answers for the token it picked: from two characters past
   * the token's first '=' up to, but not including, its last character.
   * `substring` throws when that range is inverted (begin past end).
   */
  function FileNameFromToken(token: string): (r: Result<string, RuntimeFault>)
    ensures r.Success? <==> if '=' in token then IndexOf(token, '=') + 3 <= |token| else 2 <= |token|
    ensures r.Failure? ==> r.error == StringIndexOutOfBounds
    ensures r.Success? ==> EndsWith(token, r.value + [token[|token| - 1]])
    ensures r.Success? ==> StartsWith(token[IndexOf(token, '=') + 2..], r.value)
  {
    Substring(token, IndexOf(token, '=') + 2, |token| - 1)
  }

  /** Token `i` is the first one that names the file. */
  predicate IsFirstFileToken(tokens: seq<string>, i: int) {
    && 0 <= i < |tokens|
    && NamesFile(tokens[i])
    && forall j | 0 <= j < i :: !NamesFile(tokens[j])
  }

  /** The loop of `getFileName`: the first token naming the file decides; none gives "". */
  function FileNameFromTokens(tokens: seq<string>): (r: Result<string, RuntimeFault>)
    ensures (forall j | 0 <= j < |tokens| :: !NamesFile(tokens[j])) ==> r == Success("")
    ensures forall i | IsFirstFileToken(tokens, i) :: r == FileNameFromToken(tokens[i])
  {
    if tokens == [] then Success("")
    else if NamesFile(tokens[0]) then FileNameFromToken(tokens[0])
    else
      var rest := FileNameFromTokens(tokens[1..]);
      assert forall i | IsFirstFileToken(tokens, i) :: i >= 1 && IsFirstFileToken(tokens[1..], i - 1);
      rest
  }

  /** An empty token never names the file, so empty tokens at the end change nothing. */
  lemma {:induction false} TrailingEmptyTokensIgnored(tokens: seq<string>, empties: seq<string>)
    requires forall i | 0 <= i < |empties| :: empties[i] == []
    ensures FileNameFromTokens(tokens + empties) == FileNameFromTokens(tokens)
    decreases |tokens|
  {
    if tokens == [] {
      assert tokens + empties == empties;
      assert forall i | 0 <= i < |empties| :: Trim(empties[i]) == [];
    } else {
      assert (tokens + empties)[0] == tokens[0];
      assert (tokens + empties)[1..] == tokens[1..] + empties;
      TrailingEmptyTokensIgnored(tokens[1..], empties);
    }
  }

  /**
   * `getFileName(part)`: splits the part's Content-Disposition header on ';' and
   * extracts the filename from the first token naming it.  A missing part or
   * header throws `NullPointerException`.  Java's `split` drops trailing empty
   * tokens; the result is the same as over every ';'-separated piece.
   */
  function GetFileName(contentDisposition: Option<string>): (r: Result<string, RuntimeFault>)
    ensures contentDisposition.None? ==> r == Failure(NullPointer)
    ensures contentDisposition.Some? ==> r == FileNameFromTokens(Split(contentDisposition.value, ';'))
  {
    if contentDisposition.None? then Failure(NullPointer)
    else
      var header := contentDisposition.value;
      var all := Split(header, ';');
      var kept := JavaSplit(header, ';');
      assert all == kept + all[|kept|..];
      TrailingEmptyTokensIgnored(kept, all[|kept|..]);
      FileNameFromTokens(kept)
  }

  /** The Content-Disposition header a browser sends for a form-data file field. */
  function FormDataDisposition(fieldName: string, fileName: string): string {
    Join(["form-data", " name=\"" + fieldName + "\"", " filename=\"" + fileName + "\""], ';')
  }

  /** Trimmed, a token is `trimmed` when it is `trimmed` behind some whitespace. */
  lemma TrimPaddedToken(ws: string, trimmed: string)
    requires IsBlank(ws)
    requires trimmed != [] && !IsTrimmable(trimmed[0]) && !IsTrimmable(trimmed[|trimmed| - 1])
    ensures Trim(ws + trimmed) == trimmed
  {
    TrimBlankPrefix(ws, trimmed);
    TrimUnpadded(trimmed);
  }

  /** The filename token of a form-data header names the file, and its quoted value is extracted. */
  lemma FileNameToken(fileName: string)
    ensures NamesFile(" filename=\"" + fileName + "\"")
    ensures FileNameFromToken(" filename=\"" + fileName + "\"") == Success(fileName)
  {
    FileNameTokenNamesFile(fileName);
    FileNameTokenValue(fileName);
  }

  lemma FileNameTokenNamesFile(fileName: string)
    ensures NamesFile(" filename=\"" + fileName + "\"")
  {
    var u := "filename=\"" + fileName + "\"";
    assert " filename=\"" == " " + "filename=\"";
    assert " filename=\"" + fileName + "\"" == " " + u;
    TrimPaddedToken(" ", u);
    assert FILENAME_PARAMETER <= u;
  }

  lemma FileNameTokenValue(fileName: string)
    ensures FileNameFromToken(" filename=\"" + fileName + "\"") == Success(fileName)
  {
    var t := " filename=\"" + fileName + "\"";
    var tail := "=\"" + fileName + "\"";
    assert " filename=\"" == " filename" + "=\"";
    assert t == " filename" + tail;
    IndexOfAfterPrefix(" filename", tail, '=');
    assert tail[0] == '=';
    assert t[11..|t| - 1] == fileName;
  }

  /** Neither the disposition type nor the field-name token of a form-data header names the file. */
  lemma LeadingTokensDoNotNameFile(fieldName: string)
    ensures !NamesFile("form-data")
    ensures !NamesFile(" name=\"" + fieldName + "\"")
  {
    TrimUnpadded("form-data");
    assert "form-data"[1] != FILENAME_PARAMETER[1];
    var t := " name=\"" + fieldName + "\"";
    TrimPaddedToken(" ", t[1..]);
    assert t == " " + t[1..];
    assert t[1] != FILENAME_PARAMETER[0];
  }

  /** Over a header joined from separator-free tokens, `getFileName` works on exactly those tokens. */
  lemma GetFileNameOfJoin(tokens: seq<string>)
    requires |tokens| >= 1
    requires forall i | 0 <= i < |tokens| :: ';' !in tokens[i]
    ensures GetFileName(Some(Join(tokens, ';'))) == FileNameFromTokens(tokens)
  {
    SplitJoin(tokens, ';');
  }

  /** The quoted filename of a form-data header comes back out, as long as neither quoted value has a ';'. */
  lemma FormDataFileNameRoundTrip(fieldName: string, fileName: string)
    requires ';' !in fieldName && ';' !in fileName
    ensures GetFileName(Some(FormDataDisposition(fieldName, fileName))) == Success(fileName)
  {
    var t0, t1, t2 := "form-data", " name=\"" + fieldName + "\"", " filename=\"" + fileName + "\"";
    var tokens := [t0, t1, t2];
    assert ';' !in t0 && ';' !in t1 && ';' !in t2;
    GetFileNameOfJoin(tokens);
    LeadingTokensDoNotNameFile(fieldName);
    FileNameToken(fileName);
    assert IsFirstFileToken(tokens, 2);
  }

  /** The header in the servlet's own usage, `form-data; name="document"; filename="a.txt"`. */
  lemma DocumentFieldExample()
    ensures GetFileName(Some(FormDataDisposition("document", "a.txt"))) == Success("a.txt")
  {
    FormDataFileNameRoundTrip("document", "a.txt");
  }

  /**
   * Whitespace before a token changes neither whether it names the file nor
   * what is extracted from it, provided the token has an '=': the '=' position
   * and the slice are taken on the untrimmed token and shift together.
   */
  lemma LeadingWhitespaceIgnored(ws: string, token: string)
    requires IsBlank(ws) && '=' in token
    ensures NamesFile(ws + token) <==> NamesFile(token)
    ensures FileNameFromToken(ws + token) == FileNameFromToken(token)
  {
    TrimBlankPrefix(ws, token);
    LeadingWhitespaceShiftsSlice(ws, token);
  }

  lemma LeadingWhitespaceShiftsSlice(ws: string, token: string)
    requires IsBlank(ws) && '=' in token
    ensures FileNameFromToken(ws + token) == FileNameFromToken(token)
  {
    assert '=' !in ws by {
      assert forall i | 0 <= i < |ws| :: ws[i] != '=';
    }
    IndexOfAfterPrefix(ws, token, '=');
    var k := IndexOf(token, '=');
    var padded := ws + token;
    var begin, end := k + 2, |token| - 1;
    if begin <= end {
      assert padded[|ws| + begin..|ws| + end] == token[begin..end];
    }
  }

  /** With no '=' in the token, `indexOf` gives -1 and the slice runs from index 1 to one before the end. */
  lemma SliceWithoutEquals(token: string)
    requires '=' !in token && |token| >= 2
    ensures FileNameFromToken(token) == Success(token[1..|token| - 1])
  {
  }

  /**
   * With an '=' the slice keeps what follows it minus one character at each end:
   * the quotes of `filename="N"`, but also the first and last characters of an
   * unquoted value, or the opening quote of `filename = "N"`.
   */
  lemma SliceAfterEquals(p: string, v: string)
    requires '=' !in p && |v| >= 2
    ensures FileNameFromToken(p + "=" + v) == Success(v[1..|v| - 1])
  {
    var t := p + "=" + v;
    assert t == p + ("=" + v);
    IndexOfAfterPrefix(p, "=" + v, '=');
    assert ("=" + v)[0] == '=';
    assert t[|p| + 2..|t| - 1] == v[1..|v| - 1];
  }

  /** Without an '=' the slice starts at index 1 of the untrimmed token, so leading whitespace does matter. */
  lemma LeadingWhitespaceMattersWithoutEquals()
    ensures NamesFile("filename") && NamesFile(" filename")
    ensures FileNameFromToken("filename") == Success("ilenam")
    ensures FileNameFromToken(" filename") == Success("filenam")
  {
    BareFileNameToken();
    PaddedFileNameToken();
  }

  lemma BareFileNameToken()
    ensures NamesFile("filename")
    ensures FileNameFromToken("filename") == Success("ilenam")
  {
    TrimUnpadded("filename");
    SliceWithoutEquals("filename");
    assert "filename"[1..7] == "ilenam";
  }

  lemma PaddedFileNameToken()
    ensures NamesFile(" filename")
    ensures FileNameFromToken(" filename") == Success("filenam")
  {
    TrimPaddedToken(" ", "filename");
    assert " filename" == " " + "filename";
    SliceWithoutEquals(" filename");
    assert " filename"[1..8] == "filenam";
  }

  /** A token with nothing after its '=' makes `substring` throw: begin lies past end. */
  lemma EmptyFileNameValueThrows()
    ensures NamesFile("filename=")
    ensures FileNameFromToken("filename=") == Failure(StringIndexOutOfBounds)
  {
    TrimUnpadded("filename=");
    assert FILENAME_PARAMETER <= "filename=";
    IndexOfAfterPrefix("filename", "=", '=');
    assert "filename=" == "filename" + "=";
  }

  // ----- Status mapping -----

  /** How a handler leaves the response. */
  datatype Response =
    | Status(code: int)                  // the handler set this status and returned
    | AsyncTransfer(documentId: string)  // the handler started an asynchronous transfer of this document
    | Uncaught(fault: RuntimeFault)      // a runtime exception escaped the handler

  /** `doGet`: a malformed URI is answered 404; otherwise the asynchronous write of the document starts. */
  function DoGet(requestUri: Option<string>): (r: Response)
    ensures r == Status(SC_NOT_FOUND) <==> requestUri.None? || LastPiece(requestUri.value, '/') == []
    ensures r != Status(SC_NOT_FOUND) ==> r == AsyncTransfer(LastPiece(requestUri.value, '/'))
  {
    if requestUri.None? then Status(SC_NOT_FOUND)
    else
      ExtractIsLastSegment(requestUri.value);
      match ExtractDocumentId(requestUri)
      case Failure(_) => Status(SC_NOT_FOUND)
      case Success(id) => AsyncTransfer(id)
  }

  /** `doDelete`: 204 when the service deletes the document, 404 on a malformed URI or a service error. */
  function DoDelete(requestUri: Option<string>, deleteDocument: string -> Outcome<Error>): (r: Response)
    ensures r == Status(SC_NO_CONTENT) || r == Status(SC_NOT_FOUND)
    ensures r == Status(SC_NO_CONTENT) <==>
              requestUri.Some? && LastPiece(requestUri.value, '/') != [] && deleteDocument(LastPiece(requestUri.value, '/')).Pass?
  {
    if requestUri.None? then Status(SC_NOT_FOUND)
    else
      ExtractIsLastSegment(requestUri.value);
      match ExtractDocumentId(requestUri)
      case Failure(_) => Status(SC_NOT_FOUND)
      case Success(id) =>
        match deleteDocument(id)
        case Pass => Status(SC_NO_CONTENT)
        case Fail(_) => Status(SC_NOT_FOUND)
  }

  /**
   * `doPut`: the identifier is the uploaded part's filename; 204 when the service
   * updates the document, 404 on a service error.  Only service errors are
   * caught, so a runtime exception from `getFileName` escapes.
   */
  function DoPut(contentDisposition: Option<string>, content: Bytes, updateDocument: (string, Bytes) -> Outcome<Error>): (r: Response)
    ensures GetFileName(contentDisposition).Failure? ==> r == Uncaught(GetFileName(contentDisposition).error)
    ensures GetFileName(contentDisposition).Success? ==>
              var id := GetFileName(contentDisposition).value;
              && (r == Status(SC_NO_CONTENT) <==> updateDocument(id, content).Pass?)
              && (r == Status(SC_NOT_FOUND) <==> updateDocument(id, content).Fail?)
  {
    match GetFileName(contentDisposition)
    case Failure(fault) => Uncaught(fault)
    case Success(id) =>
      match updateDocument(id, content)
      case Pass => Status(SC_NO_CONTENT)
      case Fail(_) => Status(SC_NOT_FOUND)
  }

  /** The service facade reports a mapper failure as its own error, keeping message and cause. */
  function AsServiceError(e: Error): Error {
    Error(Service, e.message, e.cause)
  }

  /** `DocumentService.updateDocument` over the in-memory mapper holding `store`. */
  function InMemoryUpdateService(store: Store): (string, Bytes) -> Outcome<Error> {
    (id: string, content: Bytes) =>
      match UpdateDocument(store, Some(id), Some(content))
      case Success(_) => Pass
      case Failure(e) => Fail(AsServiceError(e))
  }

  /** A PUT whose header names no file asks to update "", which no store of constructed documents holds: 404. */
  lemma PutWithoutFileNameIsNotFound(store: Store, header: string, content: Bytes)
    requires KeysAreWellFormed(store)
    requires GetFileName(Some(header)) == Success("")
    ensures DoPut(Some(header), content, InMemoryUpdateService(store)) == Status(SC_NOT_FOUND)
  {
    assert "" !in store;
  }

  /** A PUT of a form-data upload named after a stored document replaces it: 204. */
  lemma PutOfStoredDocumentIsNoContent(store: Store, fieldName: string, id: string, content: Bytes)
    requires KeysAreWellFormed(store)
    requires ';' !in fieldName && id in store
    ensures DoPut(Some(FormDataDisposition(fieldName, id)), content, InMemoryUpdateService(store)) == Status(SC_NO_CONTENT)
  {
    WellFormedIdCharacters(id);
    FormDataFileNameRoundTrip(fieldName, id);
  }
}

=== FILE: documents.dfy ===
/**
 * The document domain object.  Java's `Document` class hierarchy
 * (`PhysicalDocument`, `InMemoryDocument`) becomes one datatype with a variant
 * kind; the constructors become functions that either build the value or fail
 * with the domain validation error, and they are the only place where the
 * identifier and location rules are checked.
 */
module Documents {
  import opened Wrappers
  import opened Errors
  import opened JavaStrings

  const MAX_ID_LENGTH: nat := 20

  const ID_EMPTY_MESSAGE := "id may not be empty or null"
  const ID_FORMAT_MESSAGE := "Document id must be alpha-numeric with a '.' extension and no more than 20 characters"
  const LOCATION_EMPTY_MESSAGE := "physicalLocation may not be empty or null"

  /** Where a document's bytes live: at a backend path, or only in the mapper's memory. */
  datatype Kind = Physical(location: string) | InMemory

  datatype Document = Document(id: string, kind: Kind)

  predicate IsAlphaNumeric(c: char) {
    'a' <= c <= 'z' || 'A' <= c <= 'Z' || '0' <= c <= '9'
  }

  predicate IsAlphaNumericString(s: string) {
    forall i | 0 <= i < |s| :: IsAlphaNumeric(s[i])
  }

  /**
   * The identifier rule, read off its error message: "alpha-numeric with a '.'
   * extension and no more than 20 characters" -- a non-empty alphanumeric stem,
   * one '.', a non-empty alphanumeric extension, at most 20 characters in all.
   */
  predicate IsWellFormedId(id: string): (r: bool)
    ensures r ==> 3 <= |id| <= MAX_ID_LENGTH && IsAlphaNumeric(id[0]) && IsAlphaNumeric(id[|id| - 1])
  {
    && |id| <= MAX_ID_LENGTH
    && exists k | 0 < k < |id| - 1 ::
         id[k] == '.' && IsAlphaNumericString(id[..k]) && IsAlphaNumericString(id[k + 1..])
  }

  /** A document as the constructors admit it. */
  predicate IsValid(d: Document) {
    && !IsBlank(d.id)
    && IsWellFormedId(d.id)
    && (d.kind.Physical? ==> !IsBlank(d.kind.location))
  }

  /** A well-formed identifier starts with an alphanumeric character, so it is never blank. */
  lemma WellFormedIdIsNotBlank(id: string)
    requires IsWellFormedId(id)
    ensures !IsBlank(id)
  {
    var k :| 0 < k < |id| - 1 && id[k] == '.' && IsAlphaNumericString(id[..k]) && IsAlphaNumericString(id[k + 1..]);
    assert id[..k][0] == id[0];
  }

  /** A well-formed identifier is made of alphanumerics and its one '.'. */
  lemma WellFormedIdCharacters(id: string)
    requires IsWellFormedId(id)
    ensures forall i | 0 <= i < |id| :: IsAlphaNumeric(id[i]) || id[i] == '.'
  {
    var k :| 0 < k < |id| - 1 && id[k] == '.' && IsAlphaNumericString(id[..k]) && IsAlphaNumericString(id[k + 1..]);
    assert forall i | 0 <= i < k :: id[i] == id[..k][i];
    assert forall i | k < i < |id| :: id[i] == id[k + 1..][i - (k + 1)];
  }

  /** The check shared by both constructors: null or blank first, then the format. */
  function CheckId(id: Option<string>): (r: Result<string, Error>)
    ensures id.None? ==> r == Failure(Raise(DomainValidation, ID_EMPTY_MESSAGE))
    ensures id.Some? && IsBlank(id.value) ==> r == Failure(Raise(DomainValidation, ID_EMPTY_MESSAGE))
    ensures id.Some? && !IsBlank(id.value) && !IsWellFormedId(id.value) ==> r == Failure(Raise(DomainValidation, ID_FORMAT_MESSAGE))
    ensures id.Some? && IsWellFormedId(id.value) ==> r == Success(id.value)
  {
    if id.None? || IsBlank(id.value) then
      Failure(Raise(DomainValidation, ID_EMPTY_MESSAGE))
    else if !IsWellFormedId(id.value) then
      Failure(Raise(DomainValidation, ID_FORMAT_MESSAGE))
    else
      Success(id.value)
  }

  /**
   * `new PhysicalDocument(id, physicalLocation)`.  Both arguments may be null.
   * The identifier is checked before the location.
   */
  function NewPhysicalDocument(id: Option<string>, location: Option<string>): (r: Result<Document, Error>)
    ensures r.Success? <==> id.Some? && IsWellFormedId(id.value) && location.Some? && !IsBlank(location.value)
    ensures r.Success? ==> r.value.id == id.value && r.value.kind == Physical(location.value) && IsValid(r.value)
    ensures id.None? || IsBlank(id.value) ==> r == Failure(Raise(DomainValidation, ID_EMPTY_MESSAGE))
    ensures id.Some? && !IsBlank(id.value) && !IsWellFormedId(id.value) ==> r == Failure(Raise(DomainValidation, ID_FORMAT_MESSAGE))
    ensures id.Some? && IsWellFormedId(id.value) && (location.None? || IsBlank(location.value)) ==>
              r == Failure(Raise(DomainValidation, LOCATION_EMPTY_MESSAGE))
  {
    match CheckId(id)
    case Failure(e) => Failure(e)
    case Success(checked) =>
      WellFormedIdIsNotBlank(checked);
      if location.None? || IsBlank(location.value) then
        Failure(Raise(DomainValidation, LOCATION_EMPTY_MESSAGE))
      else
        Success(Document(checked, Physical(location.value)))
  }

  /** `new InMemoryDocument(id)`: the identifier rule alone. */
  function NewInMemoryDocument(id: Option<string>): (r: Result<Document, Error>)
    ensures r.Success? <==> id.Some? && IsWellFormedId(id.value)
    ensures r.Success? ==> r.value == Document(id.value, InMemory) && IsValid(r.value)
    ensures id.None? || IsBlank(id.value) ==> r == Failure(Raise(DomainValidation, ID_EMPTY_MESSAGE))
    ensures id.Some? && !IsBlank(id.value) && !IsWellFormedId(id.value) ==> r == Failure(Raise(DomainValidation, ID_FORMAT_MESSAGE))
  {
    match CheckId(id)
    case Failure(e) => Failure(e)
    case Success(checked) =>
      WellFormedIdIsNotBlank(checked);
      Success(Document(checked, InMemory))
  }

  /**
   * The identifier rule decided by a scan for the first '.', as a regular
   * expression matcher would: the two characterisations agree on every string.
   */
  lemma {:induction false} WellFormedIdByFirstDot(id: string)
    ensures IsWellFormedId(id) <==>
              var k := IndexOf(id, '.');
              && |id| <= MAX_ID_LENGTH
              && 0 < k < |id| - 1
              && IsAlphaNumericString(id[..k])
              && IsAlphaNumericString(id[k + 1..])
  {
    var d := IndexOf(id, '.');
    if IsWellFormedId(id) {
      var k :| 0 < k < |id| - 1 && id[k] == '.' && IsAlphaNumericString(id[..k]) && IsAlphaNumericString(id[k + 1..]);
      assert forall j | 0 <= j < k :: id[j] == id[..k][j];
      assert forall j | 0 <= j < d :: id[j] == id[..d][j];
      assert d == k;
    } else if 0 < d < |id| - 1 && |id| <= MAX_ID_LENGTH {
      assert !(id[d] == '.' && IsAlphaNumericString(id[..d]) && IsAlphaNumericString(id[d + 1..]));
    }
  }

  /** A valid identifier and a non-blank location always construct, and `getId` gives the identifier back. */
  lemma PhysicalDocumentKeepsId(id: string, location: string)
    requires IsWellFormedId(id) && !IsBlank(location)
    ensures NewPhysicalDocument(Some(id), Some(location)).Success?
    ensures NewPhysicalDocument(Some(id), Some(location)).value.id == id
  {
  }

  /** The identifier "test.bar/" has a character outside the alphanumerics after its '.'. */
  lemma TrailingSlashIdRejected()
    ensures NewPhysicalDocument(Some("test.bar/"), Some("/tmp/x")) == Failure(Raise(DomainValidation, ID_FORMAT_MESSAGE))
  {
    var id := "test.bar/";
    assert !IsAlphaNumeric(id[8]);
    forall k | 0 < k < |id| - 1 && id[k] == '.'
      ensures !IsAlphaNumericString(id[k + 1..])
    {
      assert id[k + 1..][8 - (k + 1)] == id[8];
    }
    assert id[0] == 't';
  }

  /** The identifier "bad/id.txt" has a separator in its stem. */
  lemma EmbeddedSeparatorIdRejected()
    ensures NewPhysicalDocument(Some("bad/id.txt"), Some("/tmp/x")) == Failure(Raise(DomainValidation, ID_FORMAT_MESSAGE))
  {
    var id := "bad/id.txt";
    assert !IsAlphaNumeric(id[3]);
    assert id[6] == '.';
    forall k | 0 < k < |id| - 1 && id[k] == '.'
      ensures !IsAlphaNumericString(id[..k])
    {
      assert id[..k][3] == id[3];
    }
    assert id[0] == 'b';
  }

  // ----- Equality and hashing: both depend on the identifier alone -----

  /** `Document.hashCode`: the identifier's string hash, a Java `int`. */
  function HashCode(d: Document): (h: int)
    ensures -TWO_TO_THE_31 <= h < TWO_TO_THE_31
  {
    StringHash(d.id)
  }

  /** `Document.equals`: same identifier, whatever the variant or location; equal documents hash alike. */
  function Equals(a: Document, b: Document): (r: bool)
    ensures r ==> HashCode(a) == HashCode(b)
  {
    a.id == b.id
  }

  /** `equals` is an equivalence and `hashCode` agrees with it, across variants. */
  lemma EqualsIsConsistent(a: Document, b: Document, c: Document)
    ensures Equals(a, a)
    ensures Equals(a, b) <==> Equals(b, a)
    ensures Equals(a, b) && Equals(b, c) ==> Equals(a, c)
    ensures Equals(a, b) ==> HashCode(a) == HashCode(b)
  {
  }

  /**
   * `LinkedHashSet.contains`: true when some element has the same hash code and
   * is `equals` to `d`, the match the hash table's bucket lookup makes.
   */
  function Contains(elements: seq<Document>, d: Document): (r: bool)
    ensures r <==> exists i | 0 <= i < |elements| :: elements[i].id == d.id
  {
    if elements == [] then false
    else
      var last := elements[|elements| - 1];
      var earlier := elements[..|elements| - 1];
      assert forall i | 0 <= i < |earlier| :: earlier[i] == elements[i];
      (HashCode(last) == HashCode(d) && Equals(last, d)) || Contains(earlier, d)
  }

  /** `LinkedHashSet.add`: appends the document unless an equal one is already present. */
  function Add(elements: seq<Document>, d: Document): (r: seq<Document>)
    ensures Contains(r, d)
    ensures forall e :: Contains(r, e) <==> Contains(elements, e) || Equals(d, e)
    ensures Contains(elements, d) ==> r == elements
  {
    if Contains(elements, d) then elements
    else
      assert (elements + [d])[|elements|] == d;
      assert forall i | 0 <= i < |elements| :: (elements + [d])[i] == elements[i];
      elements + [d]
  }

  /** A set holding one document contains exactly the documents with its identifier. */
  lemma SingletonSetMembership(a: Document, b: Document)
    ensures Contains(Add([], a), b) <==> a.id == b.id
  {
  }
}

=== FILE: errors.dfy ===
/**
 * The checked exceptions of the document store.  Each carries a message and an
 * optional cause, as a Java `Throwable` does.
 */
module Errors {
  import opened Wrappers

  /** Which exception class was thrown. */
  datatype ErrorKind =
    | DomainValidation   // DocuservDomainException, thrown by the Document constructors
    | DataMapper         // DocumentDMException, thrown by a DocumentDataMapper
    | Servlet            // DocumentServletException, thrown while reading the request
    | Service            // DocuservServiceException, the service facade's uniform error

  datatype Error = Error(kind: ErrorKind, message: string, cause: Option<Error>)

  /** An exception raised by a validation check: it has no underlying cause. */
  function Raise(kind: ErrorKind, message: string): Error
  {
    Error(kind, message, None)
  }
}

=== FILE: in_memory_mapper.dfy ===
/**
 * The heap-backed `DocumentDataMapper`: a map from document identifier to the
 * bytes stored under it.  A content stream is modelled as the byte sequence it
 * drains to, and a `null` argument as `None`.  Every operation returns the new
 * store or the mapper exception it throws.
 */
module InMemoryMapper {
  import opened Wrappers
  import opened Errors
  import opened Documents

  type Bytes = seq<bv8>

  type Store = map<string, Bytes>

  const DOCUMENT_NULL_MESSAGE := "document may not be null"
  const STREAM_NULL_MESSAGE := "documentInputStream may not be null"
  const ID_NULL_MESSAGE := "documentId may not be null"

  const NOT_IN_STORE_PREFIX := "Document identified by documentId: "
  const NOT_IN_STORE_SUFFIX := " does not exist in store"

  /** The message of the not-found failure of `updateDocument`; it names the identifier. */
  function NotInStoreMessage(id: string): string {
    NOT_IN_STORE_PREFIX + id + NOT_IN_STORE_SUFFIX
  }

  /** The not-found message names its identifier: different identifiers give different messages. */
  lemma NotInStoreMessageNamesId(a: string, b: string)
    ensures NotInStoreMessage(a) == NotInStoreMessage(b) ==> a == b
  {
    if NotInStoreMessage(a) == NotInStoreMessage(b) {
      var n := |NOT_IN_STORE_PREFIX|;
      assert |a| == |b|;
      assert a == NotInStoreMessage(a)[n..n + |a|];
      assert b == NotInStoreMessage(b)[n..n + |b|];
    }
  }

  /** A mapper with nothing stored yet. */
  const EmptyStore: Store := map[]

  /** Every key was the identifier of a document that passed construction. */
  predicate KeysAreWellFormed(store: Store) {
    forall id | id in store :: IsWellFormedId(id)
  }

  /** `retrieveDocumentById`: the stored bytes, or `None` ("not found") when absent. */
  function RetrieveDocumentById(store: Store, id: string): (r: Option<Bytes>)
    ensures r.None? <==> id !in store
  {
    if id in store then Some(store[id]) else None
  }

  /**
   * `createDocument(document, documentInputStream)`.  The document is checked
   * first, then the stream.  An identifier already present is overwritten.
   */
  function CreateDocument(store: Store, document: Option<Document>, content: Option<Bytes>): (r: Result<Store, Error>)
    ensures document.None? ==> r == Failure(Raise(DataMapper, DOCUMENT_NULL_MESSAGE))
    ensures document.Some? && content.None? ==> r == Failure(Raise(DataMapper, STREAM_NULL_MESSAGE))
    ensures r.Success? <==> document.Some? && content.Some?
    ensures r.Success? ==>
              && RetrieveDocumentById(r.value, document.value.id) == Some(content.value)
              && r.value.Keys == store.Keys + {document.value.id}
              && forall id | id != document.value.id :: RetrieveDocumentById(r.value, id) == RetrieveDocumentById(store, id)
  {
    if document.None? then
      Failure(Raise(DataMapper, DOCUMENT_NULL_MESSAGE))
    else if content.None? then
      Failure(Raise(DataMapper, STREAM_NULL_MESSAGE))
    else
      Success(store[document.value.id := content.value])
  }

  /**
   * `updateDocument(documentId, documentInputStream)`.  Both arguments are
   * checked before the store is consulted, so a null stream is reported even
   * for an identifier that was never created.
   */
  function UpdateDocument(store: Store, id: Option<string>, content: Option<Bytes>): (r: Result<Store, Error>)
    ensures id.None? ==> r == Failure(Raise(DataMapper, ID_NULL_MESSAGE))
    ensures id.Some? && content.None? ==> r == Failure(Raise(DataMapper, STREAM_NULL_MESSAGE))
    ensures id.Some? && content.Some? && id.value !in store ==>
              r == Failure(Raise(DataMapper, NotInStoreMessage(id.value)))
    ensures r.Success? <==> id.Some? && content.Some? && id.value in store
    ensures r.Success? ==>
              && RetrieveDocumentById(r.value, id.value) == Some(content.value)
              && r.value.Keys == store.Keys
              && forall other | other != id.value :: RetrieveDocumentById(r.value, other) == RetrieveDocumentById(store, other)
  {
    if id.None? then
      Failure(Raise(DataMapper, ID_NULL_MESSAGE))
    else if content.None? then
      Failure(Raise(DataMapper, STREAM_NULL_MESSAGE))
    else if id.value !in store then
      Failure(Raise(DataMapper, NotInStoreMessage(id.value)))
    else
      Success(store[id.value := content.value])
  }

  /** Creating a constructed document keeps every key a well-formed identifier; so does updating. */
  lemma OperationsKeepKeysWellFormed(store: Store, document: Document, id: Option<string>, content: Option<Bytes>)
    requires KeysAreWellFormed(store)
    requires IsValid(document)
    ensures CreateDocument(store, Some(document), content).Success? ==>
              KeysAreWellFormed(CreateDocument(store, Some(document), content).value)
    ensures UpdateDocument(store, id, content).Success? ==>
              KeysAreWellFormed(UpdateDocument(store, id, content).value)
  {
  }

  /** After a successful create, retrieving by the document's identifier finds bytes. */
  lemma CreateThenRetrieve(store: Store, document: Document, content: Bytes)
    ensures CreateDocument(store, Some(document), Some(content)).Success?
    ensures RetrieveDocumentById(CreateDocument(store, Some(document), Some(content)).value, document.id) == Some(content)
  {
  }

  /**
   * Updating a created document succeeds, also with a stream that the create
   * already drained (empty content), and the identifier stays retrievable.
   */
  lemma UpdateAfterCreate(store: Store, document: Document, created: Bytes, replacement: Bytes)
    ensures var s := CreateDocument(store, Some(document), Some(created)).value;
            && UpdateDocument(s, Some(document.id), Some(replacement)).Success?
            && RetrieveDocumentById(UpdateDocument(s, Some(document.id), Some(replacement)).value, document.id) == Some(replacement)
  {
  }

  /** Nothing can be updated in a fresh store: the failure names the identifier. */
  lemma UpdateOnEmptyStoreFails(id: string, content: Bytes)
    ensures UpdateDocument(EmptyStore, Some(id), Some(content)) == Failure(Raise(DataMapper, NotInStoreMessage(id)))
  {
  }

  /** The null-stream check comes before the existence check, whatever the store holds. */
  lemma StreamCheckPrecedesLookup(store: Store, id: string)
    ensures UpdateDocument(store, Some(id), None) == Failure(Raise(DataMapper, STREAM_NULL_MESSAGE))
  {
  }

  /** A second update of the same identifier replaces the first completely: the last writer wins. */
  lemma UpdateOverwrites(store: Store, id: string, first: Bytes, second: Bytes)
    requires UpdateDocument(store, Some(id), Some(first)).Success?
    ensures UpdateDocument(UpdateDocument(store, Some(id), Some(first)).value, Some(id), Some(second))
              == UpdateDocument(store, Some(id), Some(second))
  {
    assert store[id := first][id := second] == store[id := second];
  }

  /** Create "a.txt" with "hello", read it, replace it with "world", read it again. */
  lemma CreateUpdateScenario(hello: Bytes, world: Bytes)
    ensures var document := NewInMemoryDocument(Some("a.txt"));
            && document.Success?
            && var s1 := CreateDocument(EmptyStore, Some(document.value), Some(hello));
            && s1.Success?
            && RetrieveDocumentById(s1.value, "a.txt") == Some(hello)
            && var s2 := UpdateDocument(s1.value, Some("a.txt"), Some(world));
            && s2.Success?
            && RetrieveDocumentById(s2.value, "a.txt") == Some(world)
  {
    assert "a.txt"[1] == '.';
    assert IsAlphaNumericString("a.txt"[..1]);
    assert IsAlphaNumericString("a.txt"[2..]);
  }
}

=== FILE: java_strings.dfy ===
/**
 * The few `java.lang.String` operations the servlet and the domain rules rely on,
 * with Java's edge cases written out: `trim` strips every character at or below
 * U+0020, `indexOf`/`lastIndexOf` answer -1 when the character is absent,
 * `substring` throws on bad bounds, and `split` drops trailing empty strings.
 */
module JavaStrings {
  import opened Wrappers

  /** Unchecked exceptions a `String` call can throw. */
  datatype RuntimeFault = NullPointer | StringIndexOutOfBounds

  /** The characters `String.trim` removes. */
  predicate IsTrimmable(c: char) {
    c <= ' '
  }

  /** A string whose `trim()` is empty. */
  predicate IsBlank(s: string) {
    forall i | 0 <= i < |s| :: IsTrimmable(s[i])
  }

  /** The first index at or after `i` that does not hold whitespace, or the length. */
  function SkipLeading(s: string, i: nat): (k: nat)
    requires i <= |s|
    ensures i <= k <= |s|
    ensures forall j | i <= j < k :: IsTrimmable(s[j])
    ensures k < |s| ==> !IsTrimmable(s[k])
    decreases |s| - i
  {
    if i < |s| && IsTrimmable(s[i]) then SkipLeading(s, i + 1) else i
  }

  /** The end, no lower than `lo`, left after dropping the whitespace that precedes index `n`. */
  function SkipTrailing(s: string, lo: nat, n: nat): (k: nat)
    requires lo <= n <= |s|
    ensures lo <= k <= n
    ensures forall j | k <= j < n :: IsTrimmable(s[j])
    ensures lo < k ==> !IsTrimmable(s[k - 1])
  {
    if lo < n && IsTrimmable(s[n - 1]) then SkipTrailing(s, lo, n - 1) else n
  }

  /**
   * `String.trim`: advance a start index over leading whitespace, then pull the
   * end index back over trailing whitespace, and keep what lies between.
   */
  function Trim(s: string): string {
    var begin := SkipLeading(s, 0);
    s[begin..SkipTrailing(s, begin, |s|)]
  }

  /** `SkipLeading` is the only index with its two properties. */
  lemma SkipLeadingUnique(s: string, i: nat, k: nat)
    requires i <= k <= |s|
    requires forall j | i <= j < k :: IsTrimmable(s[j])
    requires k < |s| ==> !IsTrimmable(s[k])
    ensures SkipLeading(s, i) == k
  {
  }

  /** `SkipTrailing` is the only index with its two properties. */
  lemma SkipTrailingUnique(s: string, lo: nat, n: nat, k: nat)
    requires lo <= k <= n <= |s|
    requires forall j | k <= j < n :: IsTrimmable(s[j])
    requires lo < k ==> !IsTrimmable(s[k - 1])
    ensures SkipTrailing(s, lo, n) == k
  {
  }

  /** `trim` gives the empty string exactly for blank strings, and otherwise one with no whitespace at either end. */
  lemma TrimIsEmptyExactlyWhenBlank(s: string)
    ensures Trim(s) == [] <==> IsBlank(s)
    ensures Trim(s) != [] ==> !IsTrimmable(Trim(s)[0]) && !IsTrimmable(Trim(s)[|Trim(s)| - 1])
  {
    var begin := SkipLeading(s, 0);
    var end := SkipTrailing(s, begin, |s|);
    assert Trim(s) == s[begin..end];
    if end == begin {
      assert forall j | 0 <= j < |s| :: (j < begin || begin <= j < |s|) && IsTrimmable(s[j]);
    }
  }

  /** A string with no whitespace at either end is its own trim. */
  lemma TrimUnpadded(s: string)
    requires s != [] && !IsTrimmable(s[0]) && !IsTrimmable(s[|s| - 1])
    ensures Trim(s) == s
  {
    SkipLeadingUnique(s, 0, 0);
    SkipTrailingUnique(s, 0, |s|, |s|);
  }

  /** Leading whitespace is skipped up to the first non-whitespace character of `s`. */
  lemma SkipLeadingAfterBlank(ws: string, s: string)
    requires IsBlank(ws)
    ensures SkipLeading(ws + s, 0) == |ws| + SkipLeading(s, 0)
  {
    var t := ws + s;
    var k := |ws| + SkipLeading(s, 0);
    assert forall j | 0 <= j < k :: IsTrimmable(t[j]) by {
      forall j | 0 <= j < k
        ensures IsTrimmable(t[j])
      {
        if j < |ws| {
          assert t[j] == ws[j];
        } else {
          assert t[j] == s[j - |ws|];
        }
      }
    }
    assert k < |t| ==> t[k] == s[k - |ws|];
    SkipLeadingUnique(t, 0, k);
  }

  /** Trailing whitespace is dropped past a prefix just as without it. */
  lemma SkipTrailingAfterPrefix(ws: string, s: string, lo: nat)
    requires lo <= |s|
    ensures SkipTrailing(ws + s, |ws| + lo, |ws + s|) == |ws| + SkipTrailing(s, lo, |s|)
  {
    var t := ws + s;
    var end := SkipTrailing(s, lo, |s|);
    var k := |ws| + end;
    assert forall j | k <= j < |t| :: IsTrimmable(t[j]) by {
      forall j | k <= j < |t|
        ensures IsTrimmable(t[j])
      {
        assert t[j] == s[j - |ws|];
      }
    }
    assert lo < end ==> t[k - 1] == s[end - 1];
    SkipTrailingUnique(t, |ws| + lo, |t|, k);
  }

  /** Whitespace in front of a string does not change its trim. */
  lemma TrimBlankPrefix(ws: string, s: string)
    requires IsBlank(ws)
    ensures Trim(ws + s) == Trim(s)
  {
    var begin := SkipLeading(s, 0);
    SkipLeadingAfterBlank(ws, s);
    SkipTrailingAfterPrefix(ws, s, begin);
    SliceAfterPrefix(ws, s, begin, SkipTrailing(s, begin, |s|));
  }

  /** A slice taken past a prefix is a slice of what follows it. */
  lemma SliceAfterPrefix(a: string, b: string, i: nat, j: nat)
    requires i <= j <= |b|
    ensures (a + b)[|a| + i..|a| + j] == b[i..j]
  {
  }

  /** `String.startsWith`. */
  predicate StartsWith(s: string, prefix: string) {
    prefix <= s
  }

  /** `String.endsWith`. */
  predicate EndsWith(s: string, suffix: string) {
    |suffix| <= |s| && s[|s| - |suffix|..] == suffix
  }

  /** `String.indexOf(c)`: the first position of `c`, or -1. */
  function IndexOf(s: string, c: char): (r: int)
    ensures -1 <= r < |s|
    ensures r == -1 <==> c !in s
    ensures 0 <= r ==> s[r] == c
    ensures forall j | 0 <= j < r :: s[j] != c
  {
    IndexFrom(s, c, 0)
  }

  /** The first position at or after `i` that holds `c`, or -1. */
  function IndexFrom(s: string, c: char, i: nat): (r: int)
    requires i <= |s|
    ensures r == -1 || i <= r < |s|
    ensures r == -1 ==> forall j | i <= j < |s| :: s[j] != c
    ensures 0 <= r ==> s[r] == c && forall j | i <= j < r :: s[j] != c
    decreases |s| - i
  {
    if i == |s| then -1
    else if s[i] == c then i
    else IndexFrom(s, c, i + 1)
  }

  /** `String.lastIndexOf(c)`: the last position of `c`, or -1. */
  function LastIndexOf(s: string, c: char): (r: int)
    ensures -1 <= r < |s|
    ensures r == -1 <==> c !in s
    ensures 0 <= r ==> s[r] == c
    ensures forall j | r < j < |s| :: s[j] != c
  {
    LastIndexBefore(s, c, |s|)
  }

  /** The last position before `n` that holds `c`, or -1. */
  function LastIndexBefore(s: string, c: char, n: nat): (r: int)
    requires n <= |s|
    ensures -1 <= r < n
    ensures 0 <= r ==> s[r] == c
    ensures forall j | r < j < n :: s[j] != c
  {
    if n == 0 then -1
    else if s[n - 1] == c then n - 1
    else LastIndexBefore(s, c, n - 1)
  }

  /** `String.substring(begin, end)`, which throws unless 0 <= begin <= end <= length. */
  function Substring(s: string, begin: int, end: int): Result<string, RuntimeFault> {
    if 0 <= begin <= end <= |s| then Success(s[begin..end]) else Failure(StringIndexOutOfBounds)
  }

  /** The pieces of `s` between occurrences of `sep`, every piece kept (empty ones too). */
  function Split(s: string, sep: char): (r: seq<string>)
    ensures |r| >= 1
    decreases |s|
  {
    var k := IndexOf(s, sep);
    if k < 0 then [s] else [s[..k]] + Split(s[k + 1..], sep)
  }

  /** The pieces glued back together with `sep` between consecutive ones. */
  function Join(tokens: seq<string>, sep: char): string {
    if |tokens| == 0 then []
    else if |tokens| == 1 then tokens[0]
    else tokens[0] + [sep] + Join(tokens[1..], sep)
  }

  /** Drops the empty strings at the end of `tokens`. */
  function DropTrailingEmpty(tokens: seq<string>): (r: seq<string>)
    ensures r <= tokens
    ensures r == [] || r[|r| - 1] != []
    ensures forall i | |r| <= i < |tokens| :: tokens[i] == []
  {
    if tokens != [] && tokens[|tokens| - 1] == [] then DropTrailingEmpty(tokens[..|tokens| - 1]) else tokens
  }

  /**
   * `String.split(sep)` for a separator that is not a regular-expression
   * metacharacter: no separator gives the string itself; otherwise every piece,
   * leading empty ones included, minus the empty pieces at the end.
   */
  function JavaSplit(s: string, sep: char): (r: seq<string>)
    ensures sep !in s ==> r == [s]
    ensures sep in s ==> r == [] || r[|r| - 1] != []
    ensures r <= Split(s, sep)
    ensures forall i | |r| <= i < |Split(s, sep)| :: Split(s, sep)[i] == []
  {
    if sep !in s then [s] else DropTrailingEmpty(Split(s, sep))
  }

  /** Locating the first separator splits off the first piece. */
  lemma IndexOfFirstSeparator(a: string, sep: char, b: string)
    requires sep !in a
    ensures IndexOf(a + [sep] + b, sep) == |a|
  {
    var s := a + [sep] + b;
    var k := IndexOf(s, sep);
    assert s[|a|] == sep;
    assert forall j | 0 <= j < |a| :: s[j] == a[j];
    assert forall j | 0 <= j < k :: s[j] == s[..k][j];
  }

  lemma SplitAtFirstSeparator(a: string, sep: char, b: string)
    requires sep !in a
    ensures Split(a + [sep] + b, sep) == [a] + Split(b, sep)
  {
    var s := a + [sep] + b;
    IndexOfFirstSeparator(a, sep, b);
    assert s[..|a|] == a;
    assert s[|a| + 1..] == b;
  }

  /** Joining the pieces of a split gives back the original string. */
  lemma {:induction false} JoinSplit(s: string, sep: char)
    ensures Join(Split(s, sep), sep) == s
    decreases |s|
  {
    var k := IndexOf(s, sep);
    if k >= 0 {
      var head, tail := s[..k], s[k + 1..];
      assert s == head + [sep] + tail;
      SplitAtFirstSeparator(head, sep, tail);
      JoinSplit(tail, sep);
      var rest := Split(tail, sep);
      assert ([head] + rest)[1..] == rest;
    }
  }

  /** Splitting a join of separator-free pieces gives back the pieces. */
  lemma {:induction false} SplitJoin(tokens: seq<string>, sep: char)
    requires |tokens| >= 1
    requires forall i | 0 <= i < |tokens| :: sep !in tokens[i]
    ensures Split(Join(tokens, sep), sep) == tokens
  {
    if |tokens| > 1 {
      SplitJoin(tokens[1..], sep);
      SplitAtFirstSeparator(tokens[0], sep, Join(tokens[1..], sep));
      assert tokens == [tokens[0]] + tokens[1..];
    }
  }

  /** The first occurrence of `c` in `a + b`, when `a` has none, lies in `b`. */
  lemma {:induction false} IndexOfAfterPrefix(a: string, b: string, c: char)
    requires c !in a
    ensures IndexOf(a + b, c) == if c in b then |a| + IndexOf(b, c) else -1
    decreases |a|
  {
    if a == [] {
      assert a + b == b;
    } else {
      assert (a + b)[0] == a[0];
      assert (a + b)[1..] == a[1..] + b;
      IndexOfAfterPrefix(a[1..], b, c);
    }
  }

  /** Past the first separator, the last one is found in the rest of the string. */
  lemma LastIndexAfterFirst(s: string, sep: char)
    requires 0 <= IndexOf(s, sep)
    ensures var k := IndexOf(s, sep); LastIndexOf(s, sep) == k + 1 + LastIndexOf(s[k + 1..], sep)
  {
    var k := IndexOf(s, sep);
    var rest := s[k + 1..];
    assert forall j | 0 <= j < |rest| :: s[k + 1 + j] == rest[j];
    var lr := LastIndexOf(rest, sep);
    if lr >= 0 {
      assert s[k + 1 + lr] == sep;
    }
    assert forall j | k + 1 + lr < j < |s| :: s[j] == rest[j - k - 1];
  }

  /** A suffix of a suffix is a suffix. */
  lemma SuffixOfSuffix(s: string, a: nat, b: nat)
    requires a + b <= |s|
    ensures s[a..][b..] == s[a + b..]
  {
  }

  /** The last piece of a split. */
  function LastPiece(s: string, sep: char): string {
    var pieces := Split(s, sep);
    pieces[|pieces| - 1]
  }

  /** Cutting off the first piece does not change the last piece. */
  lemma LastPieceStep(s: string, sep: char)
    requires 0 <= IndexOf(s, sep)
    ensures LastPiece(s, sep) == LastPiece(s[IndexOf(s, sep) + 1..], sep)
  {
    var k := IndexOf(s, sep);
    var rest := Split(s[k + 1..], sep);
    assert Split(s, sep) == [s[..k]] + rest;
    assert ([s[..k]] + rest)[|rest|] == rest[|rest| - 1];
  }

  /** Without a separator the last piece is the whole string. */
  lemma LastPieceWithoutSeparator(s: string, sep: char)
    requires IndexOf(s, sep) < 0
    ensures LastPiece(s, sep) == s
  {
    assert Split(s, sep) == [s];
  }

  /** What holds past the first separator holds for the whole string. */
  lemma LastPieceOfSplitStep(s: string, sep: char)
    requires 0 <= IndexOf(s, sep)
    requires var rest := s[IndexOf(s, sep) + 1..]; LastPiece(rest, sep) == rest[LastIndexOf(rest, sep) + 1..]
    ensures LastPiece(s, sep) == s[LastIndexOf(s, sep) + 1..]
  {
    var k := IndexOf(s, sep);
    var rest := s[k + 1..];
    var cut := LastIndexOf(rest, sep) + 1;
    LastPieceStep(s, sep);
    assert LastPiece(s, sep) == rest[cut..];
    LastIndexAfterFirst(s, sep);
    assert LastIndexOf(s, sep) + 1 == k + 1 + cut;
    SuffixOfSuffix(s, k + 1, cut);
  }

  /** The last piece of a split is what follows the last separator. */
  lemma {:induction false} LastPieceOfSplit(s: string, sep: char)
    ensures LastPiece(s, sep) == s[LastIndexOf(s, sep) + 1..]
    decreases |s|
  {
    var k := IndexOf(s, sep);
    if k >= 0 {
      LastPieceOfSplit(s[k + 1..], sep);
      LastPieceOfSplitStep(s, sep);
    } else {
      LastPieceWithoutSeparator(s, sep);
    }
  }

  const TWO_TO_THE_32: int := 0x1_0000_0000
  const TWO_TO_THE_31: int := 0x8000_0000

  /** `String.hashCode` before reinterpretation as a signed 32-bit value. */
  function UnsignedStringHash(s: string): (h: int)
    ensures 0 <= h < TWO_TO_THE_32
  {
    if s == [] then 0
    else (31 * UnsignedStringHash(s[..|s| - 1]) + s[|s| - 1] as int) % TWO_TO_THE_32
  }

  /** `String.hashCode`: the polynomial hash with base 31, wrapped to a Java `int`. */
  function StringHash(s: string): (h: int)
    ensures -TWO_TO_THE_31 <= h < TWO_TO_THE_31
  {
    var u := UnsignedStringHash(s);
    if u >= TWO_TO_THE_31 then u - TWO_TO_THE_32 else u
  }
}

=== FILE: wrappers.dfy ===
/** Failure-carrying datatypes used to model Java's `null` inputs and thrown exceptions. */
module Wrappers {

  /** A possibly-absent value: `None` stands for a Java `null` reference. */
  datatype Option<+T> = None | Some(value: T)

  /** The outcome of a call that either returns a value or throws. */
  datatype Result<+R, +E> = Success(value: R) | Failure(error: E)

  /** The outcome of a `void` call that either returns normally or throws. */
  datatype Outcome<+E> = Pass | Fail(error: E)
}
